=== FILE: README.md ===
# lQuery global tracker, modelled in Dafny

lQuery is a small jQuery-like DOM library. Its shared `globalTracker` object keeps
library-level state that the chainable wrapper methods rely on. This project models
that state and the duration parser it uses:

- **Event side-table** (`events.dfy`, module `Events`). For every DOM node, the
  `(type, listener)` pairs registered through the library, in order. `addEvent`
  appends a pair. `removeEvent` drops every pair equal to the given one and deletes
  the node's entry when nothing is left. `copyEvents` re-adds a node's pairs onto
  another node, which is how `clone(true)` carries listeners over. The host's native
  `addEventListener` / `removeEventListener` calls are kept as an ordered log.
- **Animation registrar** (`animations.dfy`, module `Animations`). The ad-hoc name
  counter (`LQueryAnimation0`, `LQueryAnimation1`, …) and the four built-in keyframe
  rules (fade in/out, slide down/up), each with its "already injected" flag. It also
  holds the text appended to the managed `<style>` element and each element's inline
  `animation` value.
- **Durations** (`duration.dfy`, module `Duration`). `utils.convertToMs`, with
  JavaScript's `parseInt(s, 10)` and the template-literal rendering of its result.
- **`utils.grep` on arrays** (`grep.dfy`, module `Grep`), on top of the
  order-preserving filter and reversal in `seqs.dfy` (module `Seqs`).

Nodes and listener functions are opaque identity tokens (`Dom.NodeId`,
`Events.FnId`). Every operation is a pure function from the old state to the new one.

Two behaviours of the code may surprise a reader, and the model keeps both:

- **`"2.5s"`.** `parseInt` stops at the dot, so the code gives 2000 ms and not 2500
  (`Duration.ConvertToMsExamples`).
- **Adding a pair twice, then removing it once.** This removes both copies, not one
  (`Events.AddTwiceRemoveOnce`).

Copying a node's events onto itself is modelled as the code behaves. `forEach` fixes
the array length before it iterates, so the list doubles and the loop does not run
forever. `Events.CopyEvents` needs no precondition for it.

## Model

| member | source | states |
|---|---|---|
| Events.AddEvent | lQuery.js:615-624 | the node gets an entry whose list is the old one plus the new pair at the end (a missing entry counts as empty); every other node's list is unchanged; one native add call is logged; no stored list becomes empty |
| Events.RemoveEvent | lQuery.js:626-643 | with no entry nothing changes, not even the native log; otherwise the pair no longer occurs, the remaining list is an order-preserving subsequence of the old one with every other pair's count unchanged, the entry is gone rather than empty, other nodes are untouched, and one native remove call is logged |
| Events.Without | lQuery.js:629-631 | the filter drops every occurrence of the pair, keeps the order of the rest, and keeps every other pair's multiplicity |
| Events.CopyEvents | lQuery.js:645-652 | when the source has no entry nothing changes; otherwise the destination's list becomes its old list followed by the source's list as it was before the call (also when source and destination are the same node), the source is unchanged when distinct, no other node changes, and one native add per copied pair is logged in order |
| Events.AddEach | lQuery.js:648-650 | adding a list of pairs one by one appends the whole list in order and logs one native add per pair |
| Events.EntryIffListeners | lQuery.js:632-639 | under the no-empty-list invariant, a node has an entry exactly when it has a tracked listener |
| Events.RemoveAfterAdd | lQuery.js:615-643 | adding a pair and then removing it leaves what removing it alone would; a node that had no entry ends with none |
| Events.AddTwiceRemoveOnce | lQuery.js:615-643 | adding the same pair twice and removing it once removes both copies |
| Events.ReplayKeepsNoEmptyLists | lQuery.js:615-652 | every add, remove and copy keeps every stored list non-empty |
| Events.ReachableHasNoEmptyLists | lQuery.js:587 | starting from the empty map, no sequence of operations leaves an empty list stored |
| Events.StepFrame | lQuery.js:615-652 | an operation changes only its own node's list (for a copy, the destination's) |
| Animations.GetAnimationName | lQuery.js:665-667 | the name returned is `LQueryAnimation` followed by the decimal digits of the counter before the call; the counter goes up by exactly one and nothing else changes; no counter value reached later yields the same name |
| Animations.AnimationNameInjective | lQuery.js:666 | different counter values give different names |
| Animations.Segment | lQuery.js:676 | `<name> <ms>ms <easing> forwards`, the duration written by `Duration.MsText`; `Animations.SegmentNonEmpty` shows it is never empty, which keeps the inline value a comma-separated list (`Animations.AppendInlineJoin`) |
| Animations.Declarations | lQuery.js:672-674 | each property written `key: value`, in order, separated by `; `, as `Animations.DeclarationsAppend` states |
| Animations.DeclarationsAppend | lQuery.js:672-674 | one more property appends `; key: value` to the declarations, or stands alone when there were none |
| Animations.AdHocRule | lQuery.js:675 | `@keyframes <name> { to {<declarations>}}`; `Animations.AdHocRuleInjective` shows that rules for different counter values differ whatever their declarations |
| Animations.KeyframeRule | lQuery.js:590-611 | the fixed rule text each built-in injects; `Animations.KeyframeRulesDistinct` shows the four differ and `Animations.BuiltInIsNotAdHoc` that none is an ad-hoc rule |
| Animations.AddAnimation | lQuery.js:669-682 | uses one fresh counter value; appends that name's `to`-only keyframe rule to the sheet; appends the segment `<name> <ms>ms <easing> forwards` once per occurrence of an element in the selection and never overwrites an earlier value; keeps the built-in flags |
| Animations.AddAnimationKeepsValid | lQuery.js:669-682 | on a valid registrar, the injected ad-hoc rule was not in the sheet before, and the registrar stays valid |
| Animations.AdHocStepKeepsValid | lQuery.js:665-677 | appending the rule of the current counter value and advancing the counter keeps every built-in rule's count and leaves no rule for a future name in the sheet |
| Animations.AddBuiltIn | lQuery.js:684-746 | fadeIn, fadeOut, slideDown and slideUp leave the counter alone and set their flag; they append their fixed rule only when the flag was clear; they append `<LQueryAnimationKind> <ms>ms <easing> forwards` to every selected element |
| Animations.AddBuiltInKeepsValid | lQuery.js:689-692 | on a valid registrar a built-in animation keeps it valid and leaves its rule in the sheet exactly once, however often it ran |
| Animations.BuiltInStepKeepsValid | lQuery.js:689-692 | appending a built-in rule only when its flag is clear, then setting the flag, keeps each built-in rule present exactly when flagged, once, and adds no ad-hoc rule |
| Animations.AppendInline | lQuery.js:679-680 | an empty inline value is replaced by the segment; otherwise the old value is kept as a prefix and the segment follows a comma |
| Animations.ApplyInline | lQuery.js:678-681 | each element's new value is its old value with the segment appended once per occurrence in the selection; elements outside the selection are untouched and no value loses its prefix |
| Animations.AppendInlineJoin | lQuery.js:679 | the inline value is always the comma-separated list of the segments added so far, the new one last |
| Animations.TwoAnimationsCoexist | lQuery.js:669-682 | two `addAnimation` calls on one element leave both segments, in order, after what the element already had, under two different names |
| Animations.FadeInTwice | lQuery.js:684-698 | `fadeIn(400)` on a bare element writes `LQueryAnimationFadeIn 400ms linear forwards`; a second call injects no second rule |
| Animations.KeyframeRulesDistinct | lQuery.js:589-611 | the four built-in rules are pairwise different |
| Animations.BuiltInIsNotAdHoc | lQuery.js:593-675 | no built-in rule can coincide with an ad-hoc rule |
| Animations.AdHocRuleInjective | lQuery.js:675 | ad-hoc rules for different counter values differ, whatever their declarations |
| Animations.InitialIsValid | lQuery.js:588-612 | the freshly constructed registrar satisfies the invariant: no built-in rule injected, no ad-hoc rule for any future name |
| Animations.RunCounter | lQuery.js:665-746 | over any interleaving of operations, the counter advances by exactly the number of ad-hoc names handed out |
| Animations.AdHocNamesFollowCounter | lQuery.js:665-682 | along any run of operations, the names handed out are exactly those the counter predicts: one per ad-hoc operation, from the starting counter upwards, whatever built-ins come between |
| Animations.CounterNamesConsecutive | lQuery.js:666 | the names predicted by the counter are those of consecutive counter values |
| Animations.AdHocNamesAreConsecutive | lQuery.js:665-682 | the ad-hoc names handed out are those of consecutive counter values |
| Animations.NamesFromDistinct | lQuery.js:666 | the names of any run of consecutive counter values are pairwise different |
| Animations.AdHocNamesDistinct | lQuery.js:665-682 | no two ad-hoc animations ever share a name, however they are interleaved with built-ins |
| Animations.RunKeepsValid | lQuery.js:669-746 | every operation sequence keeps the registrar valid |
| Animations.BuiltInRulesAtMostOnce | lQuery.js:689-692 | from a fresh registrar each built-in keyframe rule is injected at most once |
| Duration.TrimStart | lQuery.js:757 | `parseInt` skips exactly the leading ECMAScript white space and line terminators |
| Duration.LeadingDigits | lQuery.js:757 | `parseInt` reads the maximal run of decimal digits |
| Duration.ConvertToMs | lQuery.js:753-761 | a number is returned unchanged; a string ending in `ms` is `parseInt` of it, and that suffix is looked for before `s`; any other string ending in `s` is `parseInt` of it times 1000, NaN staying NaN; the result is undefined exactly for a string not ending in `s` |
| Duration.ParseInt | lQuery.js:757-759 | `parseInt(s, 10)`; between them `Duration.ParseIntOfNumeral` (white space, optional sign, digits: the signed digit value) and `Duration.ParseIntWithoutDigits` (no digit after white space and sign: NaN) fix its value on every string |
| Duration.MsText | lQuery.js:676 | `${durationinMS}`: `undefined`, `NaN`, or the integer's decimal digits after a `-` when negative; `Duration.ParseIntOfDecimal` shows `parseInt` reads those digits back to the number |
| Duration.ParseIntOfNumeral | lQuery.js:757 | white space, an optional sign, at least one digit and then a non-digit are read as the signed value of the digits |
| Duration.ParseIntWithoutDigits | lQuery.js:757 | when no digit follows the white space and the optional sign (white space after a sign included) the result is NaN |
| Duration.ParseIntOfDecimal | lQuery.js:757 | `parseInt` reads back any rendered integer followed by a non-digit |
| Duration.ConvertToMsOfRenderedMillis | lQuery.js:756-757 | `"<n>ms"` converts to `n` for every integer `n` |
| Duration.ConvertToMsOfRenderedSeconds | lQuery.js:758-759 | `"<n>s"` converts to `n * 1000` for every integer `n` |
| Duration.ConvertToMsExamples | lQuery.js:753-761 | `"400ms"` is 400, `"1s"` is 1000, the number 400 is 400, `"2.5s"` is 2000, and `"400"` and `"fast"` are undefined |
| Duration.DigitsValueOfDecimal | lQuery.js:676 | the decimal rendering of a natural number reads back as that number |
| Duration.NatToDecimalInjective | lQuery.js:666 | different naturals render differently |
| Grep.GrepArray | lQuery.js:776-780 | the result holds exactly the accepted items with their multiplicities; without `invert` it keeps the array's order; with it, it is the reversal of the non-inverted result |
| Seqs.FilterReverse | lQuery.js:779-780 | filtering a reversed copy equals reversing the filtered array |
| Seqs.FilterIsSubsequence | lQuery.js:629-631 | filtering only deletes elements; the kept ones stay in their original order |
| Seqs.FilterConcat | lQuery.js:629-631 | filtering distributes over concatenation |

## Left out

- `getStyle` and DOM plumbing: the managed stylesheet starts empty. A page's existing first `<style>` element and its earlier contents are not modelled, and the sheet is the list of rule texts appended.
- Native `addEventListener` / `removeEventListener`: only logged as calls. What the browser does with duplicate registrations is the host's business.
- CSSOM behaviour of `style.animation`: the inline value is the string written. A browser may re-serialise it or reject an invalid value, and neither is modelled.
- `Object.entries` on the animation properties: they come in as an ordered list of key/value strings. Property enumeration order and non-string values are the host's.
- Animations.AddAnimation: a null or undefined `animation` argument (`animate()` gives it no default) makes `Object.entries` throw after `getAnimationName` has already moved the counter on, leaving a used-up counter value with no rule and no inline change; the properties are a list here, so this path is not modelled.
- Animations.AddAnimation: the `setTimeout` callbacks that the wrapper methods schedule after an animation are outside the tracker and are not modelled.
- Duration.ConvertToMs: JavaScript numbers are exact integers in the model (`Finite(int)` or NaN). Fractional numbers are not modelled. Beyond 2^53 the source's doubles diverge from the model in three places. `parseInt` rounds a long digit run. The seconds product `parseInt(...) * 1000` (lQuery.js:759) rounds, so `"9007199254740991s"` gives 9007199254740990976 in the source and 9007199254740991000 here. The `${}` rendering in the inline segment (lQuery.js:676, 687) writes the shortest round-tripping digits, so 2^64 is written `18446744073709552000` there and `18446744073709551616` here, and it uses exponent form from 10^21 upward. Arguments that are neither a number nor a string, for which the source throws, are not modelled either.
- Animations.GetAnimationName: the counter is an unbounded natural number. In JavaScript it is a double, so after 2^53 calls the increment stops changing it and names would repeat; the proofs that ad-hoc names never repeat rely on the unbounded counter.
- Grep.GrepArray: the callback is a pure, total predicate. A JavaScript callback may keep state or throw; with `invert` it is called in reverse order, so the equation with the reversed non-inverted result needs that purity (a counting callback such as `x => c++ < 1` keeps `3` inverted but `1` otherwise).
- `utils.each`, `utils.map`, `utils.extend`, the object branch of `utils.grep`, Ajax and the wrapper methods: not part of the tracker's core.

=== FILE: animations.dfy ===
/** The animation registrar of `globalTracker`: the ad-hoc name counter, the
    four built-in keyframe animations with their "already injected" flags,
    the managed stylesheet (the rule texts appended to it, in order) and the
    inline `animation` value of each element. */
module Animations {
  import opened Dom
  import opened Duration

  /** The four built-in animations. */
  datatype BuiltIn = FadeIn | FadeOut | SlideDown | SlideUp

  function KindName(k: BuiltIn): string {
    match k
    case FadeIn => "FadeIn"
    case FadeOut => "FadeOut"
    case SlideDown => "SlideDown"
    case SlideUp => "SlideUp"
  }

  /** The keyframe name of a built-in, e.g. `LQueryAnimationFadeIn`. */
  function KeyframeName(k: BuiltIn): string {
    "LQueryAnimation" + KindName(k)
  }

  /** The body of each built-in keyframe rule, after its name. */
  function KeyframeBody(k: BuiltIn): string {
    match k
    case FadeIn => " {from {opacity: 0;} to{opacity: 1;}}"
    case FadeOut => " {from {opacity: 1;} to{opacity: 0;}}"
    case SlideDown => " { from {transform: translateY(-100%);} to {transform: translateY(0);}}"
    case SlideUp => " { from {transform: translateY(100%);} to {transform: translateY(0);}}"
  }

  /** The fixed keyframe rule each built-in injects. */
  function KeyframeRule(k: BuiltIn): string {
    "@keyframes " + KeyframeName(k) + KeyframeBody(k)
  }

  /** Registrar state. `included` holds the built-ins whose `isIncluded`
      flag is set; `sheet` is the text appended to the managed `<style>`
      element, one rule per entry; `inline` is each element's inline
      `animation` value, absent meaning empty. */
  datatype Registrar = Registrar(
    animationSeq: nat,
    included: set<BuiltIn>,
    sheet: seq<string>,
    inline: map<NodeId, string>)

  const Initial: Registrar := Registrar(0, {}, [], map[])

  /** The name `getAnimationName` gives for counter value `i`. */
  function AnimationName(i: nat): string {
    "LQueryAnimation" + NatToDecimal(i)
  }

  /** `parts` separated by `sep`, as `Array.prototype.join` does. */
  function Join(parts: seq<string>, sep: string): string
    decreases |parts|
  {
    if parts == [] then ""
    else if |parts| == 1 then parts[0]
    else Join(parts[..|parts| - 1], sep) + sep + parts[|parts| - 1]
  }

  /** The declarations `key: value; key: value` of an ad-hoc animation. */
  function Declarations(props: seq<(string, string)>): string {
    Join(seq(|props|, i requires 0 <= i < |props| => props[i].0 + ": " + props[i].1), "; ")
  }

  /** Adding one more property appends its `key: value` after a `; `, or
      gives it alone when there was none: the properties appear in order,
      separated by `; `. */
  lemma DeclarationsAppend(props: seq<(string, string)>, p: (string, string))
    ensures Declarations(props + [p])
            == if props == [] then p.0 + ": " + p.1
               else Declarations(props) + "; " + p.0 + ": " + p.1
  {
    var parts := seq(|props| + 1, i requires 0 <= i < |props| + 1 => (props + [p])[i].0 + ": " + (props + [p])[i].1);
    assert parts[..|props|] == seq(|props|, i requires 0 <= i < |props| => props[i].0 + ": " + props[i].1);
    assert parts[|props|] == p.0 + ": " + p.1;
  }

  /** The keyframe rule `addAnimation` injects: only a `to` block. */
  function AdHocRule(name: string, props: seq<(string, string)>): string {
    "@keyframes " + name + " { to {" + Declarations(props) + "}}"
  }

  /** One entry of the inline `animation` list. */
  function Segment(name: string, ms: Option<JsNumber>, easing: string): string {
    name + " " + MsText(ms) + "ms " + easing + " forwards"
  }

  function InlineOf(inline: map<NodeId, string>, e: NodeId): string {
    if e in inline then inline[e] else ""
  }

  /** The inline value after one animation is added: a non-empty prior value
      is kept as a prefix and the segment follows a comma; an empty one is
      replaced by the segment. */
  function AppendInline(prior: string, segment: string): (r: string)
    ensures prior <= r
    ensures |r| == |prior| + |segment| + (if prior == "" then 0 else 1)
    ensures r[|r| - |segment|..] == segment
    ensures prior != "" ==> r[|prior|] == ','
  {
    if prior != "" then prior + "," + segment else segment
  }

  /** `AppendInline` applied `k` times with the same segment. */
  function AppendTimes(prior: string, segment: string, k: nat): (r: string)
    ensures prior <= r
    ensures k == 0 ==> r == prior
    decreases k
  {
    if k == 0 then prior else AppendTimes(AppendInline(prior, segment), segment, k - 1)
  }

  /** The `forEach` over the selected elements: each occurrence of an
      element in `elements` appends the segment once to its inline value;
      elements not in the list are untouched, and no element loses what it
      had. */
  function ApplyInline(inline: map<NodeId, string>, elements: seq<NodeId>, segment: string)
    : (r: map<NodeId, string>)
    ensures forall e :: InlineOf(r, e) == AppendTimes(InlineOf(inline, e), segment, multiset(elements)[e])
    ensures forall e :: InlineOf(inline, e) <= InlineOf(r, e)
    decreases |elements|
  {
    if elements == [] then inline
    else
      var e0 := elements[0];
      var next := inline[e0 := AppendInline(InlineOf(inline, e0), segment)];
      var r := ApplyInline(next, elements[1..], segment);
      ApplyInlineFirst(inline, elements, segment, next, r);
      r
  }

  /** One step of `ApplyInline`: the first element gets one more segment
      than the rest of the list gives it, every other element as many. */
  lemma ApplyInlineFirst(
    inline: map<NodeId, string>, elements: seq<NodeId>, segment: string,
    next: map<NodeId, string>, r: map<NodeId, string>)
    requires elements != []
    requires next == inline[elements[0] := AppendInline(InlineOf(inline, elements[0]), segment)]
    requires forall e :: InlineOf(r, e) == AppendTimes(InlineOf(next, e), segment, multiset(elements[1..])[e])
    ensures forall e :: InlineOf(r, e) == AppendTimes(InlineOf(inline, e), segment, multiset(elements)[e])
  {
    assert elements == [elements[0]] + elements[1..];
    forall e
      ensures InlineOf(r, e) == AppendTimes(InlineOf(inline, e), segment, multiset(elements)[e])
    {
      var c := multiset(elements[1..])[e];
      if e == elements[0] {
        assert multiset(elements)[e] == c + 1;
        assert InlineOf(next, e) == AppendInline(InlineOf(inline, e), segment);
        assert AppendTimes(InlineOf(inline, e), segment, c + 1)
            == AppendTimes(AppendInline(InlineOf(inline, e), segment), segment, c);
      } else {
        assert multiset(elements)[e] == c;
        assert InlineOf(next, e) == InlineOf(inline, e);
      }
    }
  }

  /** The built-in rules each occur in the sheet exactly when their flag is
      set, and then once. */
  ghost predicate BuiltInsOnce(r: Registrar) {
    forall k :: multiset(r.sheet)[KeyframeRule(k)] == if k in r.included then 1 else 0
  }

  /** No ad-hoc rule for a counter value not yet handed out is in the sheet. */
  ghost predicate FreshNames(r: Registrar) {
    forall i: nat, props :: i >= r.animationSeq ==> AdHocRule(AnimationName(i), props) !in r.sheet
  }

  ghost predicate Valid(r: Registrar) {
    BuiltInsOnce(r) && FreshNames(r)
  }

  /** `getAnimationName`: the name for the current counter, which is then
      incremented; no later call can produce the same name. */
  function GetAnimationName(r: Registrar): (res: (string, Registrar))
    ensures res.0 == AnimationName(r.animationSeq)
    ensures res.1.animationSeq == r.animationSeq + 1
    ensures res.1.included == r.included && res.1.sheet == r.sheet && res.1.inline == r.inline
    ensures forall i: nat :: i >= res.1.animationSeq ==> AnimationName(i) != res.0
  {
    var name := AnimationName(r.animationSeq);
    assert forall i: nat :: AnimationName(i) == name ==> i == r.animationSeq by {
      forall i: nat | AnimationName(i) == name
        ensures i == r.animationSeq
      {
        AnimationNameInjective(i, r.animationSeq);
      }
    }
    (name, r.(animationSeq := r.animationSeq + 1))
  }

  /** `addAnimation`: take a fresh name, append its keyframe rule to the
      sheet, and append `"<name> <ms>ms <easing> forwards"` to the inline
      value of every element. */
  function AddAnimation(
    r: Registrar, elements: seq<NodeId>, props: seq<(string, string)>,
    duration: DurationArg, easing: string): (r': Registrar)
    ensures r'.animationSeq == r.animationSeq + 1
    ensures r'.included == r.included
    ensures r'.sheet == r.sheet + [AdHocRule(AnimationName(r.animationSeq), props)]
    ensures forall e {:trigger InlineOf(r'.inline, e)} :: InlineOf(r'.inline, e)
              == AppendTimes(InlineOf(r.inline, e),
                             Segment(AnimationName(r.animationSeq), ConvertToMs(duration), easing),
                             multiset(elements)[e])
    ensures forall e {:trigger InlineOf(r'.inline, e)} :: InlineOf(r.inline, e) <= InlineOf(r'.inline, e)
  {
    var ms := ConvertToMs(duration);
    var (name, next) := GetAnimationName(r);
    next.(sheet := next.sheet + [AdHocRule(name, props)],
          inline := ApplyInline(next.inline, elements, Segment(name, ms, easing)))
  }

  /** On a valid registrar, the rule `addAnimation` injects is new, and the
      registrar stays valid. */
  lemma AddAnimationKeepsValid(
    r: Registrar, elements: seq<NodeId>, props: seq<(string, string)>,
    duration: DurationArg, easing: string)
    requires Valid(r)
    ensures AdHocRule(AnimationName(r.animationSeq), props) !in r.sheet
    ensures Valid(AddAnimation(r, elements, props, duration, easing))
  {
    var r' := AddAnimation(r, elements, props, duration, easing);
    AdHocStepKeepsValid(r, r', AdHocRule(AnimationName(r.animationSeq), props), props);
  }

  lemma AdHocStepKeepsValid(r: Registrar, r': Registrar, rule: string, props: seq<(string, string)>)
    requires Valid(r)
    requires rule == AdHocRule(AnimationName(r.animationSeq), props)
    requires r'.animationSeq == r.animationSeq + 1 && r'.included == r.included
    requires r'.sheet == r.sheet + [rule]
    ensures Valid(r')
  {
    forall k
      ensures multiset(r'.sheet)[KeyframeRule(k)] == if k in r'.included then 1 else 0
    {
      BuiltInIsNotAdHoc(k, r.animationSeq, props);
    }
    forall i: nat, q | i >= r'.animationSeq
      ensures AdHocRule(AnimationName(i), q) !in r'.sheet
    {
      if AdHocRule(AnimationName(i), q) == rule {
        AdHocRuleInjective(i, r.animationSeq, q, props);
      }
    }
  }

  /** `addFadeIn`, `addFadeOut`, `addSlideDown`, `addSlideUp`: inject the
      kind's rule unless its flag is already set, set the flag, and append
      `"<name> <ms>ms <easing> forwards"` to every element. */
  function AddBuiltIn(
    r: Registrar, k: BuiltIn, elements: seq<NodeId>,
    duration: DurationArg, easing: string): (r': Registrar)
    ensures r'.animationSeq == r.animationSeq
    ensures r'.included == r.included + {k}
    ensures k in r.included ==> r'.sheet == r.sheet
    ensures k !in r.included ==> r'.sheet == r.sheet + [KeyframeRule(k)]
    ensures forall e {:trigger InlineOf(r'.inline, e)} :: InlineOf(r'.inline, e)
              == AppendTimes(InlineOf(r.inline, e),
                             Segment(KeyframeName(k), ConvertToMs(duration), easing),
                             multiset(elements)[e])
    ensures forall e {:trigger InlineOf(r'.inline, e)} :: InlineOf(r.inline, e) <= InlineOf(r'.inline, e)
  {
    var ms := ConvertToMs(duration);
    var sheet := if k in r.included then r.sheet else r.sheet + [KeyframeRule(k)];
    Registrar(r.animationSeq, r.included + {k}, sheet,
              ApplyInline(r.inline, elements, Segment(KeyframeName(k), ms, easing)))
  }

  /** On a valid registrar, a built-in animation keeps the registrar valid
      and leaves its rule in the sheet exactly once, however often it ran. */
  lemma AddBuiltInKeepsValid(
    r: Registrar, k: BuiltIn, elements: seq<NodeId>, duration: DurationArg, easing: string)
    requires Valid(r)
    ensures var r' := AddBuiltIn(r, k, elements, duration, easing);
            Valid(r') && multiset(r'.sheet)[KeyframeRule(k)] == 1
  {
    BuiltInStepKeepsValid(r, AddBuiltIn(r, k, elements, duration, easing), k);
  }

  lemma BuiltInStepKeepsValid(r: Registrar, r': Registrar, k: BuiltIn)
    requires Valid(r)
    requires r'.animationSeq == r.animationSeq && r'.included == r.included + {k}
    requires r'.sheet == if k in r.included then r.sheet else r.sheet + [KeyframeRule(k)]
    ensures Valid(r')
  {
    AddBuiltInKeepsBuiltInsOnce(r, r', k);
    forall i: nat, q | i >= r'.animationSeq
      ensures AdHocRule(AnimationName(i), q) !in r'.sheet
    {
      BuiltInIsNotAdHoc(k, i, q);
    }
  }

  lemma AddBuiltInKeepsBuiltInsOnce(r: Registrar, r': Registrar, k: BuiltIn)
    requires BuiltInsOnce(r)
    requires r'.included == r.included + {k}
    requires r'.sheet == if k in r.included then r.sheet else r.sheet + [KeyframeRule(k)]
    ensures BuiltInsOnce(r')
  {
    forall k'
      ensures multiset(r'.sheet)[KeyframeRule(k')] == if k' in r'.included then 1 else 0
    {
      if k !in r.included {
        RuleCountAfter(r.sheet, k, k');
      }
    }
  }

  /** Appending one built-in rule adds one occurrence of it and none of
      the others. */
  lemma RuleCountAfter(sheet: seq<string>, k: BuiltIn, k': BuiltIn)
    ensures multiset(sheet + [KeyframeRule(k)])[KeyframeRule(k')]
            == multiset(sheet)[KeyframeRule(k')] + (if k == k' then 1 else 0)
  {
    if k != k' {
      KeyframeRulesDistinct(k, k');
    }
  }

  lemma KeyframeRulesDistinct(k: BuiltIn, k': BuiltIn)
    requires k != k'
    ensures KeyframeRule(k) != KeyframeRule(k')
  {
    RuleLetters(k);
    RuleLetters(k');
  }

  /** Positions 26 and 31 of a built-in rule are the first and sixth
      letters of its kind. */
  lemma RuleLetters(k: BuiltIn)
    ensures |KeyframeRule(k)| >= 32
    ensures KeyframeRule(k)[26] == if k.FadeIn? || k.FadeOut? then 'F' else 'S'
    ensures KeyframeRule(k)[31] == match k case FadeIn => 'n' case FadeOut => 'u' case SlideDown => 'D' case SlideUp => 'U'
  {
    BuiltInRuleKind(k);
    KindLetters(k);
    assert KeyframeRule(k)[26] == KindName(k)[0];
    assert KeyframeRule(k)[31] == KindName(k)[5];
  }

  /** The first and sixth letters of a kind's name tell the kinds apart. */
  lemma KindLetters(k: BuiltIn)
    ensures |KindName(k)| >= 6
    ensures KindName(k)[0] == if k.FadeIn? || k.FadeOut? then 'F' else 'S'
    ensures KindName(k)[5] == match k case FadeIn => 'n' case FadeOut => 'u' case SlideDown => 'D' case SlideUp => 'U'
  {
  }

  /** Ad-hoc names are distinct for distinct counter values. */
  lemma AnimationNameInjective(i: nat, j: nat)
    requires AnimationName(i) == AnimationName(j)
    ensures i == j
  {
    var p := "LQueryAnimation";
    assert NatToDecimal(i) == AnimationName(i)[|p|..];
    assert NatToDecimal(j) == AnimationName(j)[|p|..];
    NatToDecimalInjective(i, j);
  }

  /** Position 26 of an ad-hoc rule, just after `@keyframes LQueryAnimation`,
      starts the counter's digits. */
  lemma AdHocRuleDigits(i: nat, props: seq<(string, string)>)
    ensures |AdHocRule(AnimationName(i), props)| > 26
    ensures AdHocRule(AnimationName(i), props)[26..]
            == NatToDecimal(i) + (" { to {" + Declarations(props) + "}}")
  {
    var d := NatToDecimal(i);
    var tail := " { to {" + Declarations(props) + "}}";
    assert AdHocRule(AnimationName(i), props) == "@keyframes LQueryAnimation" + (d + tail);
  }

  /** No built-in rule is the rule of an ad-hoc animation: after
      `LQueryAnimation` a built-in continues with a letter, an ad-hoc one
      with a digit. */
  lemma BuiltInIsNotAdHoc(k: BuiltIn, i: nat, props: seq<(string, string)>)
    ensures KeyframeRule(k) != AdHocRule(AnimationName(i), props)
  {
    AdHocRuleDigits(i, props);
    BuiltInRuleKind(k);
    KindLetters(k);
    assert AdHocRule(AnimationName(i), props)[26] == NatToDecimal(i)[0];
    assert KeyframeRule(k)[26] == KindName(k)[0];
  }

  /** Position 26 of a built-in rule starts the kind's name. */
  lemma BuiltInRuleKind(k: BuiltIn)
    ensures |KeyframeRule(k)| >= 32
    ensures KeyframeRule(k)[26..] == KindName(k) + KeyframeBody(k)
  {
    KindLetters(k);
    RuleShape(KindName(k), KeyframeBody(k));
  }

  /** `@keyframes LQueryAnimation` is 26 characters long. */
  lemma RuleShape(kind: string, body: string)
    ensures |"@keyframes " + ("LQueryAnimation" + kind) + body| == 26 + |kind| + |body|
    ensures ("@keyframes " + ("LQueryAnimation" + kind) + body)[26..] == kind + body
  {
    var p := "@keyframes " + "LQueryAnimation";
    assert |p| == 26;
    assert "@keyframes " + ("LQueryAnimation" + kind) + body == p + (kind + body);
  }

  /** Two ad-hoc rules are equal only if they come from the same counter
      value: the counter's digits are followed by a space. */
  lemma AdHocRuleInjective(i: nat, j: nat, p: seq<(string, string)>, q: seq<(string, string)>)
    requires AdHocRule(AnimationName(i), p) == AdHocRule(AnimationName(j), q)
    ensures i == j
  {
    AdHocRuleDigits(i, p);
    AdHocRuleDigits(j, q);
    var tp := " { to {" + Declarations(p) + "}}";
    var tq := " { to {" + Declarations(q) + "}}";
    LeadingDigitsOfConcat(NatToDecimal(i), tp);
    LeadingDigitsOfConcat(NatToDecimal(j), tq);
    NatToDecimalInjective(i, j);
  }

  lemma InitialIsValid()
    ensures Valid(Initial)
  {
  }

  /** Every segment is non-empty: it starts with the animation's name. */
  lemma SegmentNonEmpty(name: string, ms: Option<JsNumber>, easing: string)
    ensures Segment(name, ms, easing) != ""
  {
  }

  /** A join whose last part is non-empty is non-empty. */
  lemma JoinNonEmpty(parts: seq<string>, sep: string)
    requires parts != [] && parts[|parts| - 1] != ""
    ensures Join(parts, sep) != ""
  {
  }

  /** The inline value is the comma-separated list of the segments added so
      far: appending one more keeps every earlier animation and puts the
      new one last. */
  lemma AppendInlineJoin(segments: seq<string>, segment: string)
    requires forall i :: 0 <= i < |segments| ==> segments[i] != ""
    ensures AppendInline(Join(segments, ","), segment) == Join(segments + [segment], ",")
  {
    var all := segments + [segment];
    assert all[..|all| - 1] == segments;
    if segments != [] {
      JoinNonEmpty(segments, ",");
    }
  }

  /** On a single element, `addAnimation` appends its segment once. */
  lemma AddAnimationOnOne(
    r: Registrar, e: NodeId, props: seq<(string, string)>, d: DurationArg, easing: string)
    ensures InlineOf(AddAnimation(r, [e], props, d, easing).inline, e)
            == AppendInline(InlineOf(r.inline, e), Segment(AnimationName(r.animationSeq), ConvertToMs(d), easing))
  {
    assert multiset([e])[e] == 1;
  }

  /** On a single element, a built-in animation appends its segment once. */
  lemma AddBuiltInOnOne(r: Registrar, k: BuiltIn, e: NodeId, d: DurationArg, easing: string)
    ensures InlineOf(AddBuiltIn(r, k, [e], d, easing).inline, e)
            == AppendInline(InlineOf(r.inline, e), Segment(KeyframeName(k), ConvertToMs(d), easing))
  {
    assert multiset([e])[e] == 1;
  }

  /** Two appends in a row keep both segments, in order, after the ones
      already there. */
  lemma AppendInlineTwice(segments: seq<string>, s1: string, s2: string)
    requires forall i :: 0 <= i < |segments| ==> segments[i] != ""
    requires s1 != ""
    ensures AppendInline(AppendInline(Join(segments, ","), s1), s2) == Join(segments + [s1, s2], ",")
  {
    AppendInlineJoin(segments, s1);
    StillNonEmpty(segments, s1);
    AppendInlineJoinLast(segments, s1, s2);
  }

  lemma StillNonEmpty(segments: seq<string>, s1: string)
    requires forall i :: 0 <= i < |segments| ==> segments[i] != ""
    requires s1 != ""
    ensures forall i :: 0 <= i < |segments + [s1]| ==> (segments + [s1])[i] != ""
  {
  }

  lemma AppendInlineJoinLast(segments: seq<string>, s1: string, s2: string)
    requires forall i :: 0 <= i < |segments + [s1]| ==> (segments + [s1])[i] != ""
    ensures AppendInline(Join(segments + [s1], ","), s2) == Join(segments + [s1, s2], ",")
  {
    AppendInlineJoin(segments + [s1], s2);
    assert segments + [s1] + [s2] == segments + [s1, s2];
  }

  /** Two `addAnimation` calls on an element: both segments are present,
      comma-separated, after whatever the element already had, and their
      names differ. */
  lemma TwoAnimationsCoexist(
    r: Registrar, e: NodeId, segments: seq<string>,
    p1: seq<(string, string)>, d1: DurationArg, p2: seq<(string, string)>, d2: DurationArg, easing: string)
    requires forall i :: 0 <= i < |segments| ==> segments[i] != ""
    requires InlineOf(r.inline, e) == Join(segments, ",")
    ensures var r1 := AddAnimation(r, [e], p1, d1, easing);
            var r2 := AddAnimation(r1, [e], p2, d2, easing);
            var s1 := Segment(AnimationName(r.animationSeq), ConvertToMs(d1), easing);
            var s2 := Segment(AnimationName(r.animationSeq + 1), ConvertToMs(d2), easing);
            && InlineOf(r2.inline, e) == Join(segments + [s1, s2], ",")
            && AnimationName(r.animationSeq) != AnimationName(r.animationSeq + 1)
  {
    AddAnimationTwiceOnOne(r, e, p1, d1, p2, d2, easing);
    SegmentsTwice(segments, AnimationName(r.animationSeq), AnimationName(r.animationSeq + 1),
                  ConvertToMs(d1), ConvertToMs(d2), easing);
    NextNameDiffers(r.animationSeq);
  }

  lemma AddAnimationTwiceOnOne(
    r: Registrar, e: NodeId,
    p1: seq<(string, string)>, d1: DurationArg, p2: seq<(string, string)>, d2: DurationArg, easing: string)
    ensures var r1 := AddAnimation(r, [e], p1, d1, easing);
            var r2 := AddAnimation(r1, [e], p2, d2, easing);
            InlineOf(r2.inline, e)
            == AppendInline(AppendInline(InlineOf(r.inline, e),
                                         Segment(AnimationName(r.animationSeq), ConvertToMs(d1), easing)),
                            Segment(AnimationName(r.animationSeq + 1), ConvertToMs(d2), easing))
  {
    AddAnimationOnOne(r, e, p1, d1, easing);
    AddAnimationOnOne(AddAnimation(r, [e], p1, d1, easing), e, p2, d2, easing);
  }

  lemma SegmentsTwice(
    segments: seq<string>, n1: string, n2: string, m1: Option<JsNumber>, m2: Option<JsNumber>, easing: string)
    requires forall i :: 0 <= i < |segments| ==> segments[i] != ""
    ensures var s1 := Segment(n1, m1, easing);
            var s2 := Segment(n2, m2, easing);
            AppendInline(AppendInline(Join(segments, ","), s1), s2) == Join(segments + [s1, s2], ",")
  {
    SegmentNonEmpty(n1, m1, easing);
    AppendInlineTwice(segments, Segment(n1, m1, easing), Segment(n2, m2, easing));
  }

  lemma NextNameDiffers(i: nat)
    ensures AnimationName(i) != AnimationName(i + 1)
  {
    if AnimationName(i) == AnimationName(i + 1) {
      AnimationNameInjective(i, i + 1);
    }
  }

  /** `${durationinMS}` for the number 400 renders as `400`. */
  lemma Render400()
    ensures MsText(ConvertToMs(Number(400))) == "400"
  {
    assert DigitChar(4) == '4' && DigitChar(0) == '0';
    assert NatToDecimal(4) == "4";
    assert NatToDecimal(40) == "40";
    assert NatToDecimal(400) == "400";
  }

  lemma FadeInSegment400()
    ensures Segment(KeyframeName(FadeIn), ConvertToMs(Number(400)), "linear")
            == "LQueryAnimationFadeIn 400ms linear forwards"
  {
    Render400();
  }

  /** `fadeIn(400)` on an element without an animation, twice: the inline
      value is `LQueryAnimationFadeIn 400ms linear forwards` after the first
      call, and the fade-in rule is in the sheet once after both. */
  lemma FadeInTwice(r: Registrar, e: NodeId)
    requires Valid(r) && InlineOf(r.inline, e) == ""
    ensures var r1 := AddBuiltIn(r, FadeIn, [e], Number(400), "linear");
            var r2 := AddBuiltIn(r1, FadeIn, [e], Number(400), "linear");
            && InlineOf(r1.inline, e) == "LQueryAnimationFadeIn 400ms linear forwards"
            && r2.sheet == r1.sheet
            && multiset(r2.sheet)[KeyframeRule(FadeIn)] == 1
  {
    AddBuiltInOnOne(r, FadeIn, e, Number(400), "linear");
    AddBuiltInKeepsValid(r, FadeIn, [e], Number(400), "linear");
    FadeInSegment400();
  }

  /** The registrar operations, as `animate`, `fadeIn`, `fadeOut`,
      `slideDown` and `slideUp` issue them. */
  datatype AnimOp =
    | Animate(elements: seq<NodeId>, props: seq<(string, string)>, duration: DurationArg, easing: string)
    | RunBuiltIn(kind: BuiltIn, elements: seq<NodeId>, duration: DurationArg, easing: string)

  function Apply(r: Registrar, op: AnimOp): Registrar {
    match op
    case Animate(es, props, d, easing) => AddAnimation(r, es, props, d, easing)
    case RunBuiltIn(k, es, d, easing) => AddBuiltIn(r, k, es, d, easing)
  }

  function Run(r: Registrar, ops: seq<AnimOp>): Registrar
    decreases |ops|
  {
    if ops == [] then r else Run(Apply(r, ops[0]), ops[1..])
  }

  /** The ad-hoc names handed out along `ops`, in order. */
  function AdHocNames(r: Registrar, ops: seq<AnimOp>): seq<string> {
    NamesAlong(Apply, r, ops)
  }

  /** The ad-hoc names handed out along `ops` when `step` performs each
      operation: an ad-hoc one takes the name `getAnimationName` gives in
      the current state. */
  function NamesAlong(step: (Registrar, AnimOp) -> Registrar, r: Registrar, ops: seq<AnimOp>): seq<string>
    decreases |ops|
  {
    if ops == [] then []
    else (if ops[0].Animate? then [GetAnimationName(r).0] else [])
         + NamesAlong(step, step(r, ops[0]), ops[1..])
  }

  /** `step` moves the counter on exactly for an ad-hoc operation. */
  ghost predicate CountsAdHoc(step: (Registrar, AnimOp) -> Registrar) {
    forall r, op :: step(r, op).animationSeq == r.animationSeq + (if op.Animate? then 1 else 0)
  }

  /** The counter ends advanced by the number of ad-hoc names handed out. */
  lemma {:induction false} RunCounter(r: Registrar, ops: seq<AnimOp>)
    ensures Run(r, ops).animationSeq == r.animationSeq + |AdHocNames(r, ops)|
    decreases |ops|
  {
    if ops != [] {
      var next := Apply(r, ops[0]);
      ApplyCounter(r, ops[0]);
      RunCounter(next, ops[1..]);
      assert Run(r, ops) == Run(next, ops[1..]);
      assert |AdHocNames(r, ops)| == (if ops[0].Animate? then 1 else 0) + |AdHocNames(next, ops[1..])|;
    }
  }

  /** The names of consecutive counter values from `base`, one for each
      ad-hoc operation of `ops`: what the counter alone predicts. */
  function CounterNames(base: nat, ops: seq<AnimOp>): seq<string>
    decreases |ops|
  {
    if ops == [] then []
    else if ops[0].Animate? then [AnimationName(base)] + CounterNames(base + 1, ops[1..])
    else CounterNames(base, ops[1..])
  }

  /** The names handed out along a run are the ones the counter predicts:
      only the counter decides them. */
  lemma AdHocNamesFollowCounter(r: Registrar, ops: seq<AnimOp>)
    ensures AdHocNames(r, ops) == CounterNames(r.animationSeq, ops)
  {
    forall r0, op
      ensures Apply(r0, op).animationSeq == r0.animationSeq + (if op.Animate? then 1 else 0)
    {
      ApplyCounter(r0, op);
    }
    NamesAlongFollowCounter(Apply, r, ops);
  }

  lemma {:induction false} NamesAlongFollowCounter(
    step: (Registrar, AnimOp) -> Registrar, r: Registrar, ops: seq<AnimOp>)
    requires CountsAdHoc(step)
    ensures NamesAlong(step, r, ops) == CounterNames(r.animationSeq, ops)
    decreases |ops|
  {
    if ops != [] {
      var next := step(r, ops[0]);
      NamesAlongFollowCounter(step, next, ops[1..]);
      CounterNamesUnfold(r.animationSeq, ops);
    }
  }

  lemma CounterNamesUnfold(base: nat, ops: seq<AnimOp>)
    requires ops != []
    ensures CounterNames(base, ops)
            == (if ops[0].Animate? then [AnimationName(base)] else [])
               + CounterNames(base + (if ops[0].Animate? then 1 else 0), ops[1..])
  {
    if !ops[0].Animate? {
      assert [] + CounterNames(base, ops[1..]) == CounterNames(base, ops[1..]);
    }
  }

  lemma {:induction false} CounterNamesConsecutive(base: nat, ops: seq<AnimOp>)
    ensures NamesFrom(CounterNames(base, ops), base)
    decreases |ops|
  {
    if ops != [] {
      var head := if ops[0].Animate? then [AnimationName(base)] else [];
      CounterNamesConsecutive(base + |head|, ops[1..]);
      NamesFromCons(head, CounterNames(base + |head|, ops[1..]), base);
      assert CounterNames(base, ops) == head + CounterNames(base + |head|, ops[1..]);
    }
  }

  /** The names handed out are those of consecutive counter values. */
  lemma AdHocNamesAreConsecutive(r: Registrar, ops: seq<AnimOp>)
    ensures NamesFrom(AdHocNames(r, ops), r.animationSeq)
  {
    AdHocNamesFollowCounter(r, ops);
    CounterNamesConsecutive(r.animationSeq, ops);
  }

  /** `names` are the names of the counter values `base`, `base + 1`, ... */
  ghost predicate NamesFrom(names: seq<string>, base: nat) {
    forall i :: 0 <= i < |names| ==> names[i] == AnimationName(base + i)
  }

  lemma NamesFromCons(head: seq<string>, rest: seq<string>, base: nat)
    requires |head| <= 1 && (head != [] ==> head[0] == AnimationName(base))
    requires NamesFrom(rest, base + |head|)
    ensures NamesFrom(head + rest, base)
  {
    forall i | 0 <= i < |head + rest|
      ensures (head + rest)[i] == AnimationName(base + i)
    {
      if i >= |head| {
        assert (head + rest)[i] == rest[i - |head|];
      }
    }
  }

  /** Names of distinct counter values are distinct. */
  lemma NamesFromDistinct(names: seq<string>, base: nat)
    requires NamesFrom(names, base)
    ensures forall i, j :: 0 <= i < j < |names| ==> names[i] != names[j]
  {
    forall i, j | 0 <= i < j < |names|
      ensures names[i] != names[j]
    {
      if names[i] == names[j] {
        AnimationNameInjective(base + i, base + j);
      }
    }
  }

  /** Only ad-hoc animations advance the counter, by one. */
  lemma ApplyCounter(r: Registrar, op: AnimOp)
    ensures Apply(r, op).animationSeq == r.animationSeq + (if op.Animate? then 1 else 0)
  {
  }

  /** Ad-hoc names never repeat, however built-in and ad-hoc animations are
      interleaved. */
  lemma AdHocNamesDistinct(r: Registrar, ops: seq<AnimOp>)
    ensures forall i, j :: 0 <= i < j < |AdHocNames(r, ops)| ==>
              AdHocNames(r, ops)[i] != AdHocNames(r, ops)[j]
  {
    AdHocNamesAreConsecutive(r, ops);
    NamesFromDistinct(AdHocNames(r, ops), r.animationSeq);
  }

  lemma {:induction false} RunKeepsValid(r: Registrar, ops: seq<AnimOp>)
    requires Valid(r)
    ensures Valid(Run(r, ops))
    decreases |ops|
  {
    if ops != [] {
      ApplyKeepsValid(r, ops[0]);
      RunKeepsValid(Apply(r, ops[0]), ops[1..]);
    }
  }

  lemma ApplyKeepsValid(r: Registrar, op: AnimOp)
    requires Valid(r)
    ensures Valid(Apply(r, op))
  {
    match op
    case Animate(es, props, d, easing) => AddAnimationKeepsValid(r, es, props, d, easing);
    case RunBuiltIn(k, es, d, easing) => AddBuiltInKeepsValid(r, k, es, d, easing);
  }

  /** From a fresh registrar, any sequence of operations leaves each
      built-in rule in the sheet at most once. */
  lemma BuiltInRulesAtMostOnce(ops: seq<AnimOp>)
    ensures forall k :: multiset(Run(Initial, ops).sheet)[KeyframeRule(k)] <= 1
  {
    InitialIsValid();
    RunKeepsValid(Initial, ops);
  }
}

=== FILE: dom.dfy ===
/** Identity tokens for host-owned DOM nodes. */
module Dom {

  /** A DOM node, compared by identity (two structurally equal nodes are
      different targets), never by value. */
  datatype NodeId = NodeId(handle: nat)
}

=== FILE: duration.dfy ===
/** The duration parser `utils.convertToMs`, together with the parts of the
    JavaScript runtime it leans on: `parseInt(s, 10)` and the decimal
    rendering of a number inside a template literal. */
module Duration {

  datatype Option<T> = None | Some(value: T)

  /** A JavaScript number as far as durations need one: an integer number
      of milliseconds, or NaN (what `parseInt` yields with no digits). */
  datatype JsNumber = Finite(n: int) | NaN

  /** The argument of `convertToMs`: a number, or a string such as `"400ms"`. */
  datatype DurationArg = Number(ms: int) | Text(s: string)

  predicate IsDigit(c: char) {
    '0' <= c <= '9'
  }

  predicate AllDigits(s: string) {
    forall i :: 0 <= i < |s| ==> IsDigit(s[i])
  }

  /** The characters JavaScript's `parseInt` skips before the number: the
      white space and line terminators of ECMAScript (TAB, VT, FF, SP, NBSP,
      ZWNBSP, the Zs space separators, LF, CR, LS, PS). */
  predicate IsJsWhiteSpace(c: char) {
    || c == '\t' || c == '\n' || c == '\r' || c == ' '
    || c == '\U{000B}' || c == '\U{000C}'
    || c == '\U{00A0}' || c == '\U{1680}'
    || '\U{2000}' <= c <= '\U{200A}'
    || c == '\U{2028}' || c == '\U{2029}'
    || c == '\U{202F}' || c == '\U{205F}' || c == '\U{3000}' || c == '\U{FEFF}'
  }

  predicate AllWhiteSpace(s: string) {
    forall i :: 0 <= i < |s| ==> IsJsWhiteSpace(s[i])
  }

  /** `s` without its leading white space. */
  function TrimStart(s: string): (r: string)
    ensures |r| <= |s| && r == s[|s| - |r|..]
    ensures AllWhiteSpace(s[..|s| - |r|])
    ensures r == [] || !IsJsWhiteSpace(r[0])
  {
    if s != [] && IsJsWhiteSpace(s[0]) then
      var r := TrimStart(s[1..]);
      TrimStartStep(s, r);
      r
    else
      assert s[..0] == [];
      s
  }

  /** One step of `TrimStart`: a white-space character in front joins the
      skipped part. */
  lemma TrimStartStep(s: string, r: string)
    requires s != [] && IsJsWhiteSpace(s[0])
    requires |r| <= |s| - 1 && r == s[1..][|s| - 1 - |r|..]
    requires AllWhiteSpace(s[1..][..|s| - 1 - |r|])
    ensures |r| <= |s| && r == s[|s| - |r|..]
    ensures AllWhiteSpace(s[..|s| - |r|])
  {
    assert s[..|s| - |r|] == [s[0]] + s[1..][..|s| - 1 - |r|];
  }

  /** The longest prefix of `s` made of decimal digits. */
  function LeadingDigits(s: string): (r: string)
    ensures |r| <= |s| && r == s[..|r|]
    ensures AllDigits(r)
    ensures |r| == |s| || !IsDigit(s[|r|])
  {
    if s != [] && IsDigit(s[0]) then [s[0]] + LeadingDigits(s[1..]) else []
  }

  function DigitValue(c: char): nat
    requires IsDigit(c)
  {
    (c as int) - ('0' as int)
  }

  function DigitChar(d: nat): (c: char)
    requires d < 10
    ensures IsDigit(c) && DigitValue(c) == d
  {
    ('0' as int + d) as char
  }

  /** The value of a string of decimal digits, most significant first. */
  function DigitsValue(d: string): nat
    requires AllDigits(d)
  {
    if d == [] then 0 else DigitsValue(d[..|d| - 1]) * 10 + DigitValue(d[|d| - 1])
  }

  /** `parseInt(s, 10)`: skip white space, take an optional sign, then the
      value of the longest run of decimal digits; NaN when there is none.
      With radix 10 no `0x` prefix is recognised. */
  function ParseInt(s: string): JsNumber
  {
    ParseSigned(TrimStart(s))
  }

  /** `parseInt` after the white space: an optional sign, then digits. */
  function ParseSigned(t: string): JsNumber
  {
    if t != [] && t[0] == '-' then Negate(ParseDigits(t[1..]))
    else if t != [] && t[0] == '+' then ParseDigits(t[1..])
    else ParseDigits(t)
  }

  /** The value of the leading digits of `t`, NaN when there are none. */
  function ParseDigits(t: string): JsNumber
  {
    var digits := LeadingDigits(t);
    if digits == [] then NaN else Finite(DigitsValue(digits))
  }

  function Negate(x: JsNumber): JsNumber
  {
    match x
    case NaN => NaN
    case Finite(v) => Finite(-v)
  }

  /** `seconds * 1000` on a JavaScript number: NaN stays NaN. */
  function SecondsToMs(x: JsNumber): JsNumber
  {
    match x
    case NaN => NaN
    case Finite(v) => Finite(v * 1000)
  }

  /** Decimal digits of `n`, most significant first, no leading zero. */
  function NatToDecimal(n: nat): (r: string)
    ensures r != [] && AllDigits(r)
    ensures r[0] == '0' ==> n == 0
  {
    if n < 10 then [DigitChar(n)] else NatToDecimal(n / 10) + [DigitChar(n % 10)]
  }

  /** How a template literal renders an integer: `-` then the digits of the
      magnitude for a negative one. */
  function IntToDecimal(n: int): string
  {
    if n < 0 then "-" + NatToDecimal(-n) else NatToDecimal(n)
  }

  /** How `${durationinMS}` renders the result of `convertToMs`. */
  function MsText(ms: Option<JsNumber>): string
  {
    match ms
    case None => "undefined"
    case Some(NaN) => "NaN"
    case Some(Finite(n)) => IntToDecimal(n)
  }

  function EndsWith(s: string, suffix: string): bool {
    |suffix| <= |s| && s[|s| - |suffix|..] == suffix
  }

  /** `utils.convertToMs`: a number is already milliseconds; a string ending
      in `ms` is its leading integer; any other string ending in `s` is its
      leading integer times 1000; any other string gives `undefined`, here
      `None`. The `ms` test comes first, so `"400ms"` is never read as
      seconds. */
  function ConvertToMs(d: DurationArg): (r: Option<JsNumber>)
    ensures r == None <==> d.Text? && !EndsWith(d.s, "s")
    ensures d.Number? ==> r == Some(Finite(d.ms))
    ensures d.Text? && EndsWith(d.s, "ms") ==> r == Some(ParseInt(d.s))
    ensures d.Text? && EndsWith(d.s, "s") && !EndsWith(d.s, "ms") ==>
              r == Some(SecondsToMs(ParseInt(d.s)))
  {
    match d
    case Number(ms) => Some(Finite(ms))
    case Text(s) =>
      if EndsWith(s, "ms") then Some(ParseInt(s))
      else if EndsWith(s, "s") then Some(SecondsToMs(ParseInt(s)))
      else None
  }

  /** Reading back the digits of a natural number gives the number. */
  lemma {:induction false} DigitsValueOfDecimal(n: nat)
    ensures DigitsValue(NatToDecimal(n)) == n
  {
    var r := NatToDecimal(n);
    if n >= 10 {
      DigitsValueOfDecimal(n / 10);
      assert r[..|r| - 1] == NatToDecimal(n / 10);
    }
  }

  /** Decimal rendering is injective. */
  lemma NatToDecimalInjective(i: nat, j: nat)
    requires NatToDecimal(i) == NatToDecimal(j)
    ensures i == j
  {
    DigitsValueOfDecimal(i);
    DigitsValueOfDecimal(j);
  }

  /** The longest digit run of `digits + rest` is `digits` when `rest` does
      not start with a digit. */
  lemma {:induction false} LeadingDigitsOfConcat(digits: string, rest: string)
    requires AllDigits(digits)
    requires rest == [] || !IsDigit(rest[0])
    ensures LeadingDigits(digits + rest) == digits
  {
    if digits != [] {
      assert (digits + rest)[1..] == digits[1..] + rest;
      LeadingDigitsOfConcat(digits[1..], rest);
    } else {
      assert digits + rest == rest;
    }
  }

  /** White space at the front is skipped entirely. */
  lemma {:induction false} TrimStartOfConcat(ws: string, t: string)
    requires AllWhiteSpace(ws)
    requires t == [] || !IsJsWhiteSpace(t[0])
    ensures TrimStart(ws + t) == t
  {
    if ws != [] {
      assert (ws + t)[1..] == ws[1..] + t;
      TrimStartOfConcat(ws[1..], t);
    } else {
      assert ws + t == t;
    }
  }

  /** `parseInt` ignores leading white space. */
  lemma ParseIntSkipsWhiteSpace(ws: string, t: string)
    requires AllWhiteSpace(ws)
    requires t == [] || !IsJsWhiteSpace(t[0])
    ensures ParseInt(ws + t) == ParseSigned(t)
  {
    TrimStartOfConcat(ws, t);
  }

  /** The digits read are exactly the leading digit run. */
  lemma ParseDigitsOfConcat(digits: string, rest: string)
    requires AllDigits(digits)
    requires rest == [] || !IsDigit(rest[0])
    ensures ParseDigits(digits + rest) == if digits == [] then NaN else Finite(DigitsValue(digits))
  {
    LeadingDigitsOfConcat(digits, rest);
  }

  lemma SignOrDigitIsNotWhiteSpace(c: char)
    requires IsDigit(c) || c == '+' || c == '-'
    ensures !IsJsWhiteSpace(c)
  {
  }

  /** After the white space: an optional sign, digits, then a non-digit. */
  lemma ParseSignedOfNumeral(sign: string, digits: string, rest: string)
    requires sign == "" || sign == "+" || sign == "-"
    requires digits != [] && AllDigits(digits)
    requires rest == [] || !IsDigit(rest[0])
    ensures ParseSigned(sign + (digits + rest))
            == Finite(if sign == "-" then -(DigitsValue(digits) as int) else DigitsValue(digits))
  {
    var u := digits + rest;
    ParseDigitsOfConcat(digits, rest);
    if sign == "" {
      assert u[0] == digits[0];
      ParseSignedUnsigned(u);
      assert sign + u == u;
    } else {
      ParseSignedWithSign(sign, u);
    }
  }

  lemma ParseSignedUnsigned(u: string)
    requires u == [] || (u[0] != '+' && u[0] != '-')
    ensures ParseSigned(u) == ParseDigits(u)
  {
  }

  lemma ParseSignedWithSign(sign: string, u: string)
    requires sign == "+" || sign == "-"
    ensures ParseSigned(sign + u) == if sign == "-" then Negate(ParseDigits(u)) else ParseDigits(u)
  {
    assert (sign + u)[0] == sign[0];
    assert (sign + u)[1..] == u;
  }

  /** The meaning of `parseInt(s, 10)` on a well-formed prefix: white space,
      an optional sign, at least one digit, then anything not a digit. */
  lemma ParseIntOfNumeral(ws: string, sign: string, digits: string, rest: string)
    requires AllWhiteSpace(ws)
    requires sign == "" || sign == "+" || sign == "-"
    requires digits != [] && AllDigits(digits)
    requires rest == [] || !IsDigit(rest[0])
    ensures ParseInt(ws + sign + digits + rest)
            == Finite(if sign == "-" then -(DigitsValue(digits) as int) else DigitsValue(digits))
  {
    var t := sign + (digits + rest);
    assert ws + sign + digits + rest == ws + t;
    assert t[0] == if sign == "" then digits[0] else sign[0];
    SignOrDigitIsNotWhiteSpace(t[0]);
    ParseSignedOfNumeral(sign, digits, rest);
    ParseIntSkipsWhiteSpace(ws, t);
  }

  /** An unsigned numeral at the very start is read as its value. */
  lemma ParseIntOfDigits(digits: string, rest: string)
    requires digits != [] && AllDigits(digits)
    requires rest == [] || !IsDigit(rest[0])
    ensures ParseInt(digits + rest) == Finite(DigitsValue(digits))
  {
    var t := digits + rest;
    ParseSignedOfNumeral("", digits, rest);
    assert "" + t == t;
    assert t[0] == digits[0];
    SignOrDigitIsNotWhiteSpace(t[0]);
    ParseIntSkipsWhiteSpace("", t);
  }

  /** Without a digit after the white space and the sign, `parseInt` is NaN. */
  lemma ParseIntWithoutDigits(ws: string, sign: string, rest: string)
    requires AllWhiteSpace(ws)
    requires sign == "" || sign == "+" || sign == "-"
    requires rest == [] || (!IsDigit(rest[0]) && (sign != "" || !IsJsWhiteSpace(rest[0])))
    requires sign == "" ==> rest == [] || (rest[0] != '+' && rest[0] != '-')
    ensures ParseInt(ws + sign + rest) == NaN
  {
    var t := sign + rest;
    assert ws + sign + rest == ws + t;
    ParseDigitsOfConcat([], rest);
    assert [] + rest == rest;
    if sign == "" {
      assert t == rest;
      ParseSignedUnsigned(rest);
    } else {
      assert t[0] == sign[0];
      SignOrDigitIsNotWhiteSpace(t[0]);
      ParseSignedWithSign(sign, rest);
    }
    ParseIntSkipsWhiteSpace(ws, t);
  }

  /** `parseInt` reads back what a template literal writes, up to the first
      character that is not a digit. */
  lemma ParseIntOfDecimal(n: int, rest: string)
    requires rest == [] || !IsDigit(rest[0])
    ensures ParseInt(IntToDecimal(n) + rest) == Finite(n)
  {
    if n < 0 {
      ParseIntOfNegativeDecimal(n, rest);
    } else {
      ParseIntOfNatDecimal(n, rest);
    }
  }

  lemma ParseIntOfNatDecimal(n: int, rest: string)
    requires n >= 0
    requires rest == [] || !IsDigit(rest[0])
    ensures ParseInt(IntToDecimal(n) + rest) == Finite(n)
  {
    var d := NatToDecimal(n);
    assert IntToDecimal(n) == d;
    DigitsValueOfDecimal(n);
    ParseIntOfDigits(d, rest);
  }

  lemma ParseIntOfNegativeDecimal(n: int, rest: string)
    requires n < 0
    requires rest == [] || !IsDigit(rest[0])
    ensures ParseInt(IntToDecimal(n) + rest) == Finite(n)
  {
    var m: nat := -n;
    assert IntToDecimal(n) == "-" + NatToDecimal(m);
    assert IntToDecimal(n) + rest == "-" + (NatToDecimal(m) + rest);
    ParseIntOfMinus(m, rest);
  }

  lemma ParseIntOfMinus(m: nat, rest: string)
    requires rest == [] || !IsDigit(rest[0])
    ensures ParseInt("-" + (NatToDecimal(m) + rest)) == Finite(-(m as int))
  {
    var d := NatToDecimal(m);
    var t := "-" + (d + rest);
    DigitsValueOfDecimal(m);
    ParseSignedOfNumeral("-", d, rest);
    assert t[0] == '-';
    SignOrDigitIsNotWhiteSpace(t[0]);
    ParseIntSkipsWhiteSpace("", t);
    assert "" + t == t;
  }

  /** The rendering of an integer ends in a digit. */
  lemma IntToDecimalEndsInDigit(n: int)
    ensures IsDigit(IntToDecimal(n)[|IntToDecimal(n)| - 1])
  {
    if n < 0 {
      var d := NatToDecimal(-n);
      assert IntToDecimal(n)[|IntToDecimal(n)| - 1] == d[|d| - 1];
    }
  }

  /** Round trip of the duration parser with the renderer: `"<n>ms"` is `n`
      milliseconds. */
  lemma ConvertToMsOfRenderedMillis(n: int)
    ensures ConvertToMs(Text(IntToDecimal(n) + "ms")) == Some(Finite(n))
  {
    var m := IntToDecimal(n) + "ms";
    ParseIntOfDecimal(n, "ms");
    assert m[|m| - 2..] == "ms";
  }

  /** Round trip of the duration parser with the renderer: `"<n>s"` is
      `n * 1000` milliseconds. */
  lemma ConvertToMsOfRenderedSeconds(n: int)
    ensures ConvertToMs(Text(IntToDecimal(n) + "s")) == Some(Finite(n * 1000))
  {
    ParseIntOfDecimal(n, "s");
    RenderedSecondsSuffix(n);
  }

  /** `"<n>s"` ends in `s` and, its last digit standing before the `s`, not in `ms`. */
  lemma RenderedSecondsSuffix(n: int)
    ensures EndsWith(IntToDecimal(n) + "s", "s") && !EndsWith(IntToDecimal(n) + "s", "ms")
  {
    var d := IntToDecimal(n);
    var s := d + "s";
    IntToDecimalEndsInDigit(n);
    assert s[|s| - 1..] == "s";
    assert s[|s| - 2] == d[|d| - 1];
    assert s[|s| - 2..][0] != 'm';
  }

  /** Sample values, as the code computes them: `"2.5s"` stops at
      the dot and gives 2000, not 2500; a bare numeral string has no unit
      and gives `undefined`. */
  lemma ConvertToMsExamples()
    ensures ConvertToMs(Text("400ms")) == Some(Finite(400))
    ensures ConvertToMs(Text("1s")) == Some(Finite(1000))
    ensures ConvertToMs(Number(400)) == Some(Finite(400))
    ensures ConvertToMs(Text("2.5s")) == Some(Finite(2000))
    ensures ConvertToMs(Text("400")) == None
    ensures ConvertToMs(Text("fast")) == None
  {
    ExampleMillis();
    ExampleSeconds();
    ExampleFraction();
    ExampleNoUnit();
  }

  lemma ExampleNoUnit()
    ensures ConvertToMs(Text("400")) == None
    ensures ConvertToMs(Text("fast")) == None
  {
    assert !EndsWith("400", "s") by { assert "400"[2..] == "0"; }
    assert !EndsWith("fast", "s") by { assert "fast"[3..] == "t"; }
  }

  lemma ExampleMillis()
    ensures ConvertToMs(Text("400ms")) == Some(Finite(400))
  {
    Parse400ms();
    MillisSuffix400ms();
  }

  lemma MillisSuffix400ms()
    ensures EndsWith("400ms", "ms")
  {
    assert "400ms"[3..] == "ms";
  }

  lemma Parse400ms()
    ensures ParseInt("400ms") == Finite(400)
  {
    DigitsOf400();
    ParseIntOfDigits("400", "ms");
    assert "400" + "ms" == "400ms";
  }

  lemma ExampleSeconds()
    ensures ConvertToMs(Text("1s")) == Some(Finite(1000))
  {
    Parse1s();
    SecondsSuffix1s();
  }

  lemma SecondsSuffix1s()
    ensures EndsWith("1s", "s") && !EndsWith("1s", "ms")
  {
    assert "1s"[1..] == "s";
    assert "1s"[0..] == "1s";
  }

  lemma Parse1s()
    ensures ParseInt("1s") == Finite(1)
  {
    SignOrDigitIsNotWhiteSpace('1');
    assert TrimStart("1s") == "1s";
    assert LeadingDigits("1s") == "1" by {
      assert "1s"[1..] == "s";
      assert LeadingDigits("s") == [];
    }
    assert DigitsValue("1") == 1 by { assert "1"[..0] == ""; }
  }

  lemma ExampleFraction()
    ensures ConvertToMs(Text("2.5s")) == Some(Finite(2000))
  {
    Parse25s();
    SecondsSuffix25s();
  }

  lemma SecondsSuffix25s()
    ensures EndsWith("2.5s", "s") && !EndsWith("2.5s", "ms")
  {
    assert "2.5s"[3..] == "s";
    assert "2.5s"[2..] == "5s";
  }

  lemma DigitsOf400()
    ensures AllDigits("400") && DigitsValue("400") == 400
  {
    assert "400"[..2] == "40";
    assert "40"[..1] == "4";
    assert "4"[..0] == "";
  }

  /** `parseInt` stops at the decimal point. */
  lemma Parse25s()
    ensures ParseInt("2.5s") == Finite(2)
  {
    SignOrDigitIsNotWhiteSpace('2');
    assert TrimStart("2.5s") == "2.5s";
    assert LeadingDigits("2.5s") == "2" by {
      assert "2.5s"[1..] == ".5s";
      assert LeadingDigits(".5s") == [];
    }
    assert DigitsValue("2") == 2 by { assert "2"[..0] == ""; }
  }
}

=== FILE: events.dfy ===
/** The event side-table of `globalTracker`: for each node, the
    `(type, listener)` pairs registered through the library, in registration
    order, so that listeners can be removed by identity and copied onto
    clones. The host's native `addEventListener` / `removeEventListener`
    calls are kept as a log of the calls made, in order. */
module Events {
  import opened Dom
  import Seqs

  /** A listener function, compared by identity. */
  datatype FnId = FnId(handle: nat)

  /** One tracked registration: the event type and the listener. */
  datatype Listener = Listener(eventType: string, fn: FnId)

  /** A call into the host's native listener registry. */
  datatype NativeCall =
    | AddListener(node: NodeId, eventType: string, fn: FnId)
    | RemoveListener(node: NodeId, eventType: string, fn: FnId)

  type Table = map<NodeId, seq<Listener>>

  /** The tracker's event state: the side-table and the native calls made. */
  datatype Tracker = Tracker(events: Table, native: seq<NativeCall>)

  const Empty: Tracker := Tracker(map[], [])

  /** A node with no tracked listener has no entry: no stored list is empty. */
  ghost predicate NoEmptyLists(t: Table) {
    forall n :: n in t ==> t[n] != []
  }

  /** The listeners tracked for `n`, empty when it has no entry. */
  function Entries(t: Table, n: NodeId): seq<Listener> {
    if n in t then t[n] else []
  }

  /** `before` and `after` track the same listeners on every node other
      than `n`. */
  ghost predicate SameOtherwise(before: Table, after: Table, n: NodeId) {
    forall m :: m != n ==> Entries(after, m) == Entries(before, m)
  }

  /** `addEvent`: create the node's entry if absent, append the pair, and
      register the listener natively; an identical pair added twice is
      tracked twice. */
  function AddEvent(tr: Tracker, n: NodeId, eventType: string, fn: FnId): (r: Tracker)
    ensures n in r.events
    ensures Entries(r.events, n) == Entries(tr.events, n) + [Listener(eventType, fn)]
    ensures SameOtherwise(tr.events, r.events, n)
    ensures r.native == tr.native + [AddListener(n, eventType, fn)]
    ensures NoEmptyLists(tr.events) ==> NoEmptyLists(r.events)
  {
    var list := Entries(tr.events, n) + [Listener(eventType, fn)];
    Tracker(tr.events[n := list], tr.native + [AddListener(n, eventType, fn)])
  }

  /** The listeners of `list` other than `l`, in order. */
  function Without(list: seq<Listener>, l: Listener): (r: seq<Listener>)
    ensures l !in r
    ensures Seqs.IsSubsequence(r, list)
    ensures forall x :: x != l ==> multiset(r)[x] == multiset(list)[x]
  {
    var keep := x => x != l;
    Seqs.FilterIsSubsequence(list, keep);
    Seqs.Filter(list, keep)
  }

  /** `removeEvent`: with no entry for the node nothing happens, not even a
      native call; otherwise every pair equal to `(type, fn)` is dropped,
      the rest keep their order, and the entry is deleted when nothing is
      left. */
  function RemoveEvent(tr: Tracker, n: NodeId, eventType: string, fn: FnId): (r: Tracker)
    ensures n !in tr.events ==> r == tr
    ensures n in tr.events ==> r.native == tr.native + [RemoveListener(n, eventType, fn)]
    ensures Listener(eventType, fn) !in Entries(r.events, n)
    ensures Seqs.IsSubsequence(Entries(r.events, n), Entries(tr.events, n))
    ensures forall x :: x != Listener(eventType, fn) ==>
              multiset(Entries(r.events, n))[x] == multiset(Entries(tr.events, n))[x]
    ensures n in r.events ==> r.events[n] != []
    ensures SameOtherwise(tr.events, r.events, n)
    ensures NoEmptyLists(tr.events) ==> NoEmptyLists(r.events)
  {
    if n !in tr.events then tr
    else
      var kept := Without(tr.events[n], Listener(eventType, fn));
      var events := if |kept| > 0 then tr.events[n := kept] else tr.events - {n};
      Tracker(events, tr.native + [RemoveListener(n, eventType, fn)])
  }

  /** The native registrations made by adding each of `ls` to `n`. */
  function Registrations(n: NodeId, ls: seq<Listener>): (calls: seq<NativeCall>)
    ensures |calls| == |ls|
    ensures forall i :: 0 <= i < |ls| ==> calls[i] == AddListener(n, ls[i].eventType, ls[i].fn)
  {
    if ls == [] then [] else [AddListener(n, ls[0].eventType, ls[0].fn)] + Registrations(n, ls[1..])
  }

  /** `addEvent(n, ...)` for each pair of `ls`, in order. */
  function AddEach(tr: Tracker, n: NodeId, ls: seq<Listener>): (r: Tracker)
    ensures Entries(r.events, n) == Entries(tr.events, n) + ls
    ensures SameOtherwise(tr.events, r.events, n)
    ensures r.native == tr.native + Registrations(n, ls)
    ensures NoEmptyLists(tr.events) ==> NoEmptyLists(r.events)
    decreases |ls|
  {
    if ls == [] then tr
    else
      var mid := AddEvent(tr, n, ls[0].eventType, ls[0].fn);
      var r := AddEach(mid, n, ls[1..]);
      AppendFirst(Entries(tr.events, n), ls);
      RegistrationsFirst(tr.native, n, ls);
      r
  }

  lemma RegistrationsFirst(calls: seq<NativeCall>, n: NodeId, ls: seq<Listener>)
    requires ls != []
    ensures (calls + [AddListener(n, ls[0].eventType, ls[0].fn)]) + Registrations(n, ls[1..])
            == calls + Registrations(n, ls)
  {
    assert Registrations(n, ls) == [AddListener(n, ls[0].eventType, ls[0].fn)] + Registrations(n, ls[1..]);
  }

  lemma AppendFirst<T>(xs: seq<T>, ls: seq<T>)
    requires ls != []
    ensures (xs + [ls[0]]) + ls[1..] == xs + ls
  {
    assert ls == [ls[0]] + ls[1..];
  }

  /** `copyEvents(a, b)`: every pair tracked on `a`, as it was before the
      call, is added to `b` in `a`'s order. JavaScript's `forEach` fixes the
      length before it starts, so copying a node onto itself doubles its
      list rather than looping. */
  function CopyEvents(tr: Tracker, a: NodeId, b: NodeId): (r: Tracker)
    ensures a !in tr.events ==> r == tr
    ensures Entries(r.events, b) == Entries(tr.events, b) + Entries(tr.events, a)
    ensures a != b ==> Entries(r.events, a) == Entries(tr.events, a)
    ensures SameOtherwise(tr.events, r.events, b)
    ensures r.native == tr.native + Registrations(b, Entries(tr.events, a))
    ensures NoEmptyLists(tr.events) ==> NoEmptyLists(r.events)
  {
    if a in tr.events then AddEach(tr, b, tr.events[a]) else tr
  }

  /** Under the invariant, a node has an entry exactly when it has a
      tracked listener. */
  lemma EntryIffListeners(t: Table, n: NodeId)
    requires NoEmptyLists(t)
    ensures n in t <==> Entries(t, n) != []
  {
  }

  /** Removing `l` from a list that ends with `l` is removing it from the
      rest. */
  lemma WithoutAppended(list: seq<Listener>, l: Listener)
    ensures Without(list + [l], l) == Without(list, l)
  {
    Seqs.FilterConcat(list, [l], x => x != l);
    assert Seqs.Filter([l], x => x != l) == [];
    assert Without(list, l) + [] == Without(list, l);
  }

  /** Adding a pair and then removing it leaves the node's list as removing
      it alone would, whatever was there before; in particular a node
      without an entry ends without one. */
  lemma RemoveAfterAdd(tr: Tracker, n: NodeId, eventType: string, fn: FnId)
    ensures var r := RemoveEvent(AddEvent(tr, n, eventType, fn), n, eventType, fn);
            && Entries(r.events, n) == Without(Entries(tr.events, n), Listener(eventType, fn))
            && (Entries(tr.events, n) == [] ==> n !in r.events)
  {
    WithoutAppended(Entries(tr.events, n), Listener(eventType, fn));
  }

  /** Adding the same pair twice and removing it once removes both copies:
      removal is by identity, of every match. */
  lemma AddTwiceRemoveOnce(tr: Tracker, n: NodeId, eventType: string, fn: FnId)
    ensures var r := RemoveEvent(AddEvent(AddEvent(tr, n, eventType, fn), n, eventType, fn), n, eventType, fn);
            && Listener(eventType, fn) !in Entries(r.events, n)
            && Entries(r.events, n) == Without(Entries(tr.events, n), Listener(eventType, fn))
            && (Entries(tr.events, n) == [] ==> n !in r.events)
  {
    var l := Listener(eventType, fn);
    var once := AddEvent(tr, n, eventType, fn);
    RemoveAfterAdd(once, n, eventType, fn);
    RemoveAfterAdd(tr, n, eventType, fn);
    WithoutAppended(Entries(tr.events, n), l);
  }

  /** The operations of the side-table, as the library's `on`, `off` and
      `clone(true)` issue them. */
  datatype EventOp =
    | On(node: NodeId, eventType: string, fn: FnId)
    | Off(node: NodeId, eventType: string, fn: FnId)
    | Copy(source: NodeId, dest: NodeId)

  function Step(tr: Tracker, op: EventOp): Tracker {
    match op
    case On(n, t, f) => AddEvent(tr, n, t, f)
    case Off(n, t, f) => RemoveEvent(tr, n, t, f)
    case Copy(a, b) => CopyEvents(tr, a, b)
  }

  function Replay(tr: Tracker, ops: seq<EventOp>): Tracker
    decreases |ops|
  {
    if ops == [] then tr else Replay(Step(tr, ops[0]), ops[1..])
  }

  /** Starting from the empty table, no sequence of operations ever leaves
      an empty list in the table. */
  lemma {:induction false} ReplayKeepsNoEmptyLists(tr: Tracker, ops: seq<EventOp>)
    requires NoEmptyLists(tr.events)
    ensures NoEmptyLists(Replay(tr, ops).events)
    decreases |ops|
  {
    if ops != [] {
      var next := Step(tr, ops[0]);
      assert NoEmptyLists(next.events);
      ReplayKeepsNoEmptyLists(next, ops[1..]);
    }
  }

  lemma ReachableHasNoEmptyLists(ops: seq<EventOp>)
    ensures NoEmptyLists(Replay(Empty, ops).events)
  {
    ReplayKeepsNoEmptyLists(Empty, ops);
  }

  /** An operation on one node never touches the list of another: `on` and
      `off` act on their node, `copy` on its destination. */
  lemma StepFrame(tr: Tracker, op: EventOp, m: NodeId)
    requires m != (if op.Copy? then op.dest else op.node)
    ensures Entries(Step(tr, op).events, m) == Entries(tr.events, m)
  {
  }
}

=== FILE: grep.dfy ===
/** The array branch of `utils.grep`: keep the items the callback accepts,
    after reversing a copy of the array when `invert` is set. */
module Grep {
  import opened Seqs

  function GrepArray<T(==,!new)>(items: seq<T>, keep: T -> bool, invert: bool): (r: seq<T>)
    ensures forall x :: x in r ==> keep(x)
    ensures forall x :: multiset(r)[x] == if keep(x) then multiset(items)[x] else 0
    ensures !invert ==> IsSubsequence(r, items)
    ensures invert ==> r == Reverse(Filter(items, keep))
  {
    if invert then
      FilterReverse(items, keep);
      ReversePermutes(items);
      Filter(Reverse(items), keep)
    else
      FilterIsSubsequence(items, keep);
      Filter(items, keep)
  }
}

=== FILE: seqs.dfy ===
/** Order-preserving filtering and reversal of sequences, the two array
    primitives (`Array.prototype.filter`, `Array.prototype.reverse`) the
    tracker and `grep` are built on. */
module Seqs {

  /** `sub` is obtained from `xs` by deleting some elements, keeping the
      order of the rest. */
  ghost predicate IsSubsequence<T>(sub: seq<T>, xs: seq<T>)
    decreases |xs|
  {
    && |sub| <= |xs|
    && (|| sub == []
        || (sub[0] == xs[0] && IsSubsequence(sub[1..], xs[1..]))
        || IsSubsequence(sub, xs[1..]))
  }

  /** The elements of `xs` for which `keep` holds, in their original order. */
  function Filter<T(==,!new)>(xs: seq<T>, keep: T -> bool): (r: seq<T>)
    ensures forall x :: x in r ==> keep(x)
    ensures forall x :: multiset(r)[x] == if keep(x) then multiset(xs)[x] else 0
  {
    if xs == [] then []
    else
      assert xs == [xs[0]] + xs[1..];
      if keep(xs[0]) then [xs[0]] + Filter(xs[1..], keep) else Filter(xs[1..], keep)
  }

  /** Filtering only deletes: what is kept stays in its original order. */
  lemma {:induction false} FilterIsSubsequence<T(!new)>(xs: seq<T>, keep: T -> bool)
    ensures IsSubsequence(Filter(xs, keep), xs)
  {
    if xs != [] {
      FilterIsSubsequence(xs[1..], keep);
      var r := Filter(xs, keep);
      if keep(xs[0]) {
        assert r[0] == xs[0] && r[1..] == Filter(xs[1..], keep);
      }
    }
  }

  /** `xs` read back to front. */
  function Reverse<T>(xs: seq<T>): (r: seq<T>)
    ensures |r| == |xs|
    ensures forall i :: 0 <= i < |xs| ==> r[i] == xs[|xs| - 1 - i]
  {
    if xs == [] then [] else Reverse(xs[1..]) + [xs[0]]
  }

  /** Filtering distributes over concatenation. */
  lemma {:induction false} FilterConcat<T(!new)>(a: seq<T>, b: seq<T>, keep: T -> bool)
    ensures Filter(a + b, keep) == Filter(a, keep) + Filter(b, keep)
  {
    if a == [] {
      assert a + b == b;
    } else {
      assert (a + b)[0] == a[0];
      assert (a + b)[1..] == a[1..] + b;
      FilterConcat(a[1..], b, keep);
    }
  }

  /** Reversal turns a concatenation around. */
  lemma ReverseConcat<T>(a: seq<T>, b: seq<T>)
    ensures Reverse(a + b) == Reverse(b) + Reverse(a)
  {
    var l, r := Reverse(a + b), Reverse(b) + Reverse(a);
    assert |l| == |r|;
    forall i | 0 <= i < |l|
      ensures l[i] == r[i]
    {
      if i < |b| {
        assert r[i] == Reverse(b)[i];
      } else {
        assert r[i] == Reverse(a)[i - |b|];
      }
    }
  }

  /** Filtering a reversed sequence is reversing the filtered one. */
  lemma {:induction false} FilterReverse<T(!new)>(xs: seq<T>, keep: T -> bool)
    ensures Filter(Reverse(xs), keep) == Reverse(Filter(xs, keep))
  {
    if xs != [] {
      var rest := xs[1..];
      assert xs == [xs[0]] + rest;
      assert Reverse(xs) == Reverse(rest) + [xs[0]];
      FilterReverse(rest, keep);
      FilterConcat(Reverse(rest), [xs[0]], keep);
      assert Filter([xs[0]], keep) == if keep(xs[0]) then [xs[0]] else [];
      if keep(xs[0]) {
        assert Filter(xs, keep) == [xs[0]] + Filter(rest, keep);
        ReverseConcat([xs[0]], Filter(rest, keep));
        assert Reverse([xs[0]]) == [xs[0]];
      } else {
        assert Filter(xs, keep) == Filter(rest, keep);
        assert Filter(Reverse(rest), keep) + [] == Filter(Reverse(rest), keep);
      }
    }
  }

  /** Reversal is a permutation. */
  lemma {:induction false} ReversePermutes<T>(xs: seq<T>)
    ensures multiset(Reverse(xs)) == multiset(xs)
  {
    if xs != [] {
      ReversePermutes(xs[1..]);
      assert xs == [xs[0]] + xs[1..];
    }
  }
}
